=== FILE: README.md ===
# A model of the summernote Flask application's upload and delete logic

The application (`app.py`) stores rich-text posts in a `Content` table and
their images in an S3 bucket. This project models, in Dafny, the parts of
it that carry logic:

- **Upload file names** (module `Upload`):
  - which names `allowed_file` accepts (the fixed set of 14 extensions, compared after lower-casing the text after the last dot)
  - what `get_file_extension` reports
  - the name `generate_random_filename` builds (`<hex token>-<time stamp>.<ext>`)
  - the `/upload` handler: it stores the object under `files/<name>` and answers 201 with `S3_DOMAIN/<name>`, or 400 or 500.
- **Tokens and time stamps** (modules `Hex` and `Timestamp`):
  - `secrets.token_hex` over a parameter holding the random bytes
  - `strftime("%Y-%m-%d_at_%I.%M.%S_%p")` over a parameter holding the clock reading
  - each comes with a decoder, so that a generated name can be shown to determine its random bytes, time stamp and extension.
- **The delete side** (module `Delete`):
  - the bucket key derived from an image URL's path (`lstrip('/')`, last `/`-segment, `files/` prefix); `lstrip('/')` (app.py:82) strips every leading slash
  - the in-order deletion loop that aborts at the first failing key
  - the `DELETE /delete/<id>` handler: 404 for an unknown id, 500 naming the failing key (the row is kept), otherwise 200 with exactly that row removed.
- **The store and create-post** (module `Store`):
  - the state: posts by id, plus the set of keys in the bucket
  - the create-post branch of `/`: required non-empty `editordata`, each named attachment saved locally (a save that raises ends in 500 with no row), the saved paths stored comma-joined.
- **String helpers** (module `Text`): the Python string operations these rely on, written out over `seq<char>`:
  - `find`, `rfind`, `rsplit(sep, 1)`, `split`, `join` and `lstrip` with a one-character separator
  - ASCII `lower`
  - two-argument `os.path.join`, as `posixpath.join`.

## How the outside world is modelled

- **Clock and randomness:** the clock reading (`Timestamp.ValidTime`) and the random bytes (`seq<Hex.byte>`) are parameters.
- **Storage service:**
  - An upload's outcome is a function `uploadError: key -> Option<error text>`.
  - A deletion's outcome is a predicate `fails: key -> bool`.
  - The bucket is the set of stored keys.
  - Deleting a key that is not in the bucket succeeds, as S3 does.
- **HTML and URL parsing:** `BeautifulSoup` plus `urlparse(url).path` are one function `imagePaths: content -> seq<path>`. It gives the `src` paths of a post's images, in document order.
- **Upload-to-delete round trip:** this relies on one assumption. The path of the URL `S3_DOMAIN + "/" + f` is `"/" + f` whenever `f` has no `/`, `?`, `#` or `;`, and no tab, carriage return or line feed (URL parsing deletes those three). The model proves that generated names have none of those seven characters.
- **Local files:** `secure_filename` is a parameter `secure: string -> string`, and whether `file.save` raises for a path is a predicate `saveFails: path -> bool`.
- **Row ids:** the id the database assigns to a new row is a parameter, required to be fresh.

## Model

| member | source | states |
|---|---|---|
| Upload.AllowedFile | app.py:52-53 | An accepted name contains a dot and does not end in one. |
| Upload.AllowedFileIff | app.py:52-56 | For every dot-free `ext`, the name `stem.ext` is accepted exactly when `ext` lower-cased is one of the allowed extensions, and its reported extension is `ext` lower-cased. Both directions hold, so the last dot decides, whatever the stem holds. |
| Upload.RejectedShapes | app.py:52-53 | A name with no dot, or one that ends in a dot, is refused. |
| Upload.GetFileExtension | app.py:55-56 | Needs a dot in the name. The result is dot-free, shorter than the name and has no upper-case letter. It is an allowed extension exactly when `allowed_file` accepts the name. |
| Upload.UpperCaseExample | app.py:52-56 | `A.PNG` is accepted and reports extension `png`. |
| Upload.AllowedExtensionLetters | app.py:19 | Every allowed extension is lower-case letters only, so none holds `/`, `?`, `#`, `;`, a tab, a carriage return or a line feed. |
| Upload.GenerateRandomFilename | app.py:61-65 | A generated name is two characters per random byte, a dash, the 25-character time stamp, a dot and the extension, in length. |
| Upload.GeneratedExtension | app.py:61-65 | Reading the extension back from a generated name gives the extension it was built with, lower-cased; a lower-case one comes back unchanged. This holds although the time stamp holds dots. |
| Upload.TokenShape | app.py:64 | A hex token holds no `-`, `/`, `?`, `#` or `;`. |
| Upload.GeneratedNameShape | app.py:61-65 | A generated name is non-empty and does not start with `/`. It holds no `/`, `?`, `#` or `;`, and no tab, carriage return or line feed, unless its extension does. |
| Upload.GeneratedNameNoControls | app.py:61-65 | No tab, carriage return or line feed occurs in a generated name unless its extension holds it. |
| Upload.GeneratedNameInjective | app.py:61-65 | Equal generated names mean equal random bytes, equal clock readings (to the second) and equal extensions. |
| Upload.TokenDetermined | app.py:65 | Two names that each start with a dash-free token and then a dash split at the same place. |
| Upload.UploadFile | app.py:100-139 | No `file` part gives 400 "No file part". An empty filename gives 400 "No selected file". A missing or refused name gives 400 "Invalid file type" and changes nothing. For an accepted name with a successful store: 201 with URL `S3_DOMAIN/<name>`, the bucket gains `files/<name>`, and the name is built from the lower-cased extension. For a failed store: 500 with the error text and no change. The posts are never changed. |
| Hex.Encode | app.py:64 | `token_hex` writes two characters per byte. |
| Hex.DecodeEncode | app.py:64 | Decoding the hex text of any bytes gives those bytes back. |
| Hex.EncodeInjective | app.py:64 | Distinct random bytes give distinct tokens. |
| Hex.EncodeAvoids | app.py:64 | A character outside `0-9a-f` never occurs in a token. |
| Timestamp.Format | app.py:63 | Every time stamp is exactly 25 characters long. |
| Timestamp.ParseFormat | app.py:63 | Parsing a formatted time stamp gives the clock reading back, hour included. It goes through `%I` and `%p`. |
| Timestamp.FormatInjective | app.py:63 | Distinct clock readings give distinct time stamps. |
| Timestamp.FormatShape | app.py:63 | A time stamp is made of digits and `-_.atAMP` only. It holds a dot but no `/`, `?`, `#` or `;`. |
| Timestamp.PadValue | app.py:63 | Zero-padding to a width loses nothing when the number fits. |
| Text.RSplitOnce | app.py:53 | `rsplit(sep, 1)` gives one part when the separator is absent. Otherwise it gives two parts around the last separator, and the second part is separator-free. |
| Text.RSplitOnceOfConcat | app.py:53 | `rsplit` undoes writing a stem, the separator and a separator-free tail. |
| Text.JoinSplit | app.py:83 | Joining the pieces of `split(sep)` gives the string back. |
| Text.SplitJoin | app.py:159 | Splitting a join whose parts are separator-free gives the parts back. |
| Text.LStripRemovesPrefix | app.py:82 | `lstrip(c)` removes a prefix made only of `c` and keeps the rest. |
| Text.LStripKeepsLastSegment | app.py:82-83 | Stripping leading `c` does not change the text after the last `c`. |
| Text.PathJoinLastSegment | app.py:127 | The text after the last `/` of `os.path.join(a, b)` is `b`, for any non-empty, slash-free name `b`: joining puts a file name where splitting on `/` finds it again. |
| Delete.DeleteKey | app.py:81-84 | The derived key is `files/` followed by the text after the path's last `/`. |
| Delete.DeleteKeyInDirectory | app.py:81-84 | Every derived key starts with `files/`, and the rest holds no `/`. |
| Delete.DeleteKeyIgnoresLeadingSlash | app.py:82 | Leading slashes never change the derived key. |
| Delete.DeleteKeyOfFileName | app.py:81-84 | The path `/<f>` of a slash-free name `f` gives the key `files/<f>`. |
| Delete.DeleteKeyOfUrl | app.py:127 | The key derived from the upload's URL `os.path.join(S3_DOMAIN, name)`, read as a path, is `files/<name>` for a slash-free name. |
| Delete.DeleteKeyExample | app.py:81-84 | The path `/files/abc.png` gives the key `files/abc.png`. |
| Delete.DeleteObjects | app.py:80-89 | Deleting the keys in order from the bucket. With no failure, every key is sent and all are gone. Otherwise the first failing position is reported: the keys before it are gone, and the keys after it are never sent. The failure is reported exactly when some key fails. |
| Delete.SweepOfUnique | app.py:80-89 | That description fixes the outcome of the loop. |
| Delete.FirstFailureUnique | app.py:85-89 | There is only one first failing key. |
| Delete.DeleteFound | app.py:72-94 | For an existing row: if every key deletes, the answer is 200, exactly that row is removed and every key is gone. If the k-th key is the first to fail, the answer is 500 naming that key, the rows are unchanged and only the keys before it are gone. |
| Delete.DeleteComment | app.py:68-95 | An unknown id gives 404 and changes nothing. Otherwise the 200 and 500 cases above apply to the keys derived from the post's image paths. |
| Delete.UploadDeleteRoundTrip | app.py:109-134 | For an accepted upload, the generated name holds no `/`, `?`, `#`, `;`, tab, carriage return or line feed. The key derived from its URL path `/<name>` is the key the upload stored under. A successful upload adds exactly that key. |
| Delete.DeleteOnlyImage | app.py:92-94 | Deleting a row whose only image key deletes successfully removes the row and that object and answers 200. |
| Delete.UploadedImageIsDeleted | app.py:68-139 | End to end: after a successful upload, deleting a post whose only image is the uploaded URL's path answers 200 when deleting the uploaded key succeeds. It removes the row and exactly the uploaded object from the bucket. |
| Store.CreatePost | app.py:143-162 | A missing `editordata` gives 400 and an empty one gives 400 "Content is required!", both changing nothing. If a local save raises, the answer is the framework's 500 and no row is added. Otherwise a new row is added under the fresh id, holding the content and the saved paths comma-joined; every other row is unchanged, the bucket is untouched, and the listing is rendered. |
| Store.NoAttachmentsStoresEmpty | app.py:154-160 | With no attachment that names a file, the new row's attachment text is empty. |
| Store.SavedPathsOfNamed | app.py:154-155 | Parts that name no file are skipped: the saved paths are those of the named parts alone. |
| Store.SavedPathsSpec | app.py:154-158 | One saved path per part that names a file, in order: the i-th is the i-th named part's sanitised name under `static/uploads`. |
| Store.SavedPathsAllNamed | app.py:154-158 | When every part names a file, the i-th saved path is the i-th sanitised name joined under `static/uploads`. |
| Store.AttachmentsRoundTrip | app.py:159-160 | When every save succeeds, at least one file was saved and no path holds a comma, the stored attachment text splits on `,` back into the saved paths. |

## Left out

- Flask routing, `request.files`/`request.form` parsing and `jsonify` are framework I/O. The handlers are functions from a request's relevant fields and the state to a status, a body and the new state.
- `GET /` and the listing are left out: the listing is the rendered template over all rows in descending id order. The model only records that create-post renders the listing.
- `BeautifulSoup` (app.py:75-76) and `urlparse` (app.py:81) are foreign libraries. They are the `imagePaths` parameter, plus the URL-path assumption stated above.
- `datetime.now` and `secrets.token_hex` (app.py:63-64) are nondeterministic. The clock reading and the random bytes are parameters.
- Hex.Encode: the token's length of ten bytes (twenty characters) is not enforced. Any number of random bytes is accepted, and the comment at app.py:64 ("8-character") disagrees with the code anyway.
- boto3 calls (app.py:86, app.py:117-121) are network I/O. Their outcomes are the `uploadError` and `fails` oracles. Retries, credentials and the bucket name are not modelled.
- SQLAlchemy persistence, id assignment and commit (app.py:92-93, app.py:160-162) are database plumbing. The new id is a parameter required to be fresh.
- `secure_filename` and `file.save` (app.py:156-157) are a foreign call and filesystem I/O. The sanitiser is a parameter, and whether a save raises is the `saveFails` oracle. The local files are not part of the state, so the files saved before a failing save are not recorded.
- Delete.DeleteComment: `urlparse` (app.py:81) sits outside the `try` and raises `ValueError` on a malformed `src` such as `http://[x/files/a.png`. The source then answers the framework's 500 after deleting the earlier images' keys, and keeps the row. `imagePaths` always yields a path, so the model has no such exit.
- Template rendering, `print` logging and the `MAX_CONTENT_LENGTH` limit are left out: they are UI, logging, or enforced by the framework.
- Text.Lower: Python's `str.lower()` lower-cases all of Unicode. The model lower-cases ASCII letters only, which is all the allowed extensions need.
- Timestamp.Valid: the day is bounded by 31 rather than by the month's length. Years below 1000 are printed zero-padded to four digits, whereas some platforms' `%Y` prints them unpadded.
- Text.Split, Text.Join, Text.LStrip and Text.RSplitOnce take a one-character separator only, the only case the application uses.
- Text.PathJoin: the model assumes a POSIX host, where `os.path` is `posixpath` (app.py:127, app.py:157-158). On Windows, `ntpath.join` would write `https://aws.com\<name>`, whose URL path is empty, so the upload-to-delete round trip holds only on a POSIX host. Only the two-argument form is modelled.


=== FILE: delete.dfy ===
/**
 The delete-post side: the bucket key derived from an image URL's path, the
 in-order deletion of those keys that stops at the first failure, and the
 delete handler that removes the row only when every deletion succeeded.

 The HTML parser and the URL parser are outside the model: the handler is
 given `imagePaths`, which maps a post's HTML content to the paths of the
 `src` URLs of its `img` elements, in document order.
 */
module Delete {
  import opened Options
  import opened Text
  import opened Store
  import Hex
  import Timestamp
  import Upload

  /**
   The key derived from an image URL's path: strip leading `/`, keep the last
   `/`-separated segment, put it under `files/`. The result is the bucket
   directory followed by the text after the path's last `/`.
   */
  function DeleteKey(path: string): (key: string)
    ensures key == ObjectKey(path[RFind(path, '/') + 1..])
  {
    var filePath := LStrip(path, '/');
    var parts := Split(filePath, '/');
    LastPieceAfterLStrip(path, '/', filePath);
    ObjectKey(parts[|parts| - 1])
  }

  /** The part of a derived key after the bucket directory never holds a `/`. */
  lemma DeleteKeyInDirectory(path: string)
    ensures var key := DeleteKey(path);
            |key| >= |ObjectDir| && key[..|ObjectDir|] == ObjectDir && '/' !in key[|ObjectDir|..]
  {
    var segment := path[RFind(path, '/') + 1..];
    AfterLastFree(path, '/');
    assert (ObjectDir + segment)[|ObjectDir|..] == segment;
  }

  /** Leading slashes never affect the derived key. */
  lemma DeleteKeyIgnoresLeadingSlash(path: string)
    ensures DeleteKey("/" + path) == DeleteKey(path)
  {
    assert "/" + path == ['/'] + path;
    LastSegmentOfConcat(['/'], path, '/');
  }

  /** A slash-free file name under a single leading slash maps to its own bucket key. */
  lemma DeleteKeyOfFileName(filename: string)
    requires '/' !in filename
    ensures DeleteKey("/" + filename) == ObjectKey(filename)
  {
    DeleteKeyIgnoresLeadingSlash(filename);
    RFindNoneAfter(filename, '/');
    assert filename[0..] == filename;
  }

  /**
   The URL the upload answers with, `os.path.join(S3_DOMAIN, name)`, ends in
   the name: the key derived from it, read as a path, is the stored key.
   */
  lemma DeleteKeyOfUrl(name: string)
    requires |name| > 0 && '/' !in name
    ensures DeleteKey(PathJoin(S3Domain, name)) == ObjectKey(name)
  {
    PathJoinLastSegment(S3Domain, name);
  }

  /** The path of an uploaded object's URL maps back to that object's key. */
  lemma DeleteKeyExample()
    ensures DeleteKey("/files/abc.png") == "files/abc.png"
  {
    var path, tail := "/files/abc.png", "abc.png";
    assert path == "/files" + ['/'] + tail;
    assert forall i :: 0 <= i < |tail| ==> tail[i] != '/';
    RFindOfConcat("/files", '/', tail);
    assert path[7..] == tail;
  }

  /** The keys derived from a list of image paths, one per path, in order. */
  function DeleteKeys(paths: seq<string>): (keys: seq<string>)
    ensures |keys| == |paths|
    ensures forall i :: 0 <= i < |paths| ==> keys[i] == DeleteKey(paths[i])
  {
    seq(|paths|, i requires 0 <= i < |paths| => DeleteKey(paths[i]))
  }

  /** The keys of a list, as a set. */
  function Elems(keys: seq<string>): (ks: set<string>)
  {
    set k | k in keys
  }

  lemma ElemsCons(key: string, keys: seq<string>)
    ensures Elems([key] + keys) == {key} + Elems(keys)
  {
  }

  /** `k` is the position of the first key whose deletion fails. */
  predicate FirstFailure(keys: seq<string>, fails: string -> bool, k: int)
  {
    && 0 <= k < |keys|
    && fails(keys[k])
    && forall j :: 0 <= j < k ==> !fails(keys[j])
  }

  lemma FirstFailureUnique(keys: seq<string>, fails: string -> bool, k1: int, k2: int)
    requires FirstFailure(keys, fails, k1) && FirstFailure(keys, fails, k2)
    ensures k1 == k2
  {
  }

  /** Where a run of deletions stopped, what is left in the bucket, and which keys were sent. */
  datatype Sweep = Sweep(failedAt: Option<nat>, bucket: set<string>, attempted: seq<string>)

  /**
   What deleting `keys` in order from `bucket` must leave: with no failure,
   every key sent and gone; with a failure, the first failing position,
   the keys before it gone, and the keys up to and including it sent.
   */
  predicate SweepOf(bucket: set<string>, keys: seq<string>, fails: string -> bool, r: Sweep)
  {
    match r.failedAt
    case None =>
      && (forall i :: 0 <= i < |keys| ==> !fails(keys[i]))
      && r.bucket == bucket - Elems(keys)
      && r.attempted == keys
    case Some(k) =>
      && FirstFailure(keys, fails, k)
      && r.bucket == bucket - Elems(keys[..k])
      && r.attempted == keys[..k + 1]
  }

  /** At most one sweep meets the description, so it fixes the outcome. */
  lemma SweepOfUnique(bucket: set<string>, keys: seq<string>, fails: string -> bool, r1: Sweep, r2: Sweep)
    requires SweepOf(bucket, keys, fails, r1) && SweepOf(bucket, keys, fails, r2)
    ensures r1 == r2
  {
    match r1.failedAt
    case None =>
    case Some(k1) =>
      FirstFailureUnique(keys, fails, k1, r2.failedAt.value);
  }

  /**
   The deletion loop: delete each key in order (deleting a missing key
   succeeds, as the storage service does); on the first failure stop.
   */
  function DeleteObjects(bucket: set<string>, keys: seq<string>, fails: string -> bool): (r: Sweep)
    ensures SweepOf(bucket, keys, fails, r)
    ensures r.failedAt.None? <==> forall i :: 0 <= i < |keys| ==> !fails(keys[i])
    decreases |keys|
  {
    if |keys| == 0 then
      assert Elems(keys) == {};
      Sweep(None, bucket, [])
    else if fails(keys[0]) then
      FirstKeyFails(bucket, keys, fails);
      Sweep(Some(0), bucket, [keys[0]])
    else
      var rest := DeleteObjects(bucket - {keys[0]}, keys[1..], fails);
      SweepStep(bucket, keys, fails, rest);
      Sweep(if rest.failedAt.None? then None else Some(rest.failedAt.value + 1), rest.bucket, [keys[0]] + rest.attempted)
  }

  /** A sweep whose first deletion fails sends only that key and changes nothing. */
  lemma FirstKeyFails(bucket: set<string>, keys: seq<string>, fails: string -> bool)
    requires |keys| > 0 && fails(keys[0])
    ensures SweepOf(bucket, keys, fails, Sweep(Some(0), bucket, [keys[0]]))
  {
    assert keys[..1] == [keys[0]];
    assert Elems(keys[..0]) == {};
  }

  /** A successful first deletion followed by a sweep of the remaining keys is a sweep of all of them. */
  lemma SweepStep(bucket: set<string>, keys: seq<string>, fails: string -> bool, rest: Sweep)
    requires |keys| > 0 && !fails(keys[0])
    requires SweepOf(bucket - {keys[0]}, keys[1..], fails, rest)
    ensures SweepOf(bucket, keys, fails,
                    Sweep(if rest.failedAt.None? then None else Some(rest.failedAt.value + 1), rest.bucket, [keys[0]] + rest.attempted))
  {
    var key, tail := keys[0], keys[1..];
    assert keys == [key] + tail;
    match rest.failedAt
    case None =>
      ElemsCons(key, tail);
    case Some(k) =>
      assert keys[..k + 1] == [key] + tail[..k];
      assert keys[..k + 2] == [key] + tail[..k + 1];
      ElemsCons(key, tail[..k]);
  }

  /** What the delete handler answers, the state it leaves, and the keys it asked the storage service to delete. */
  datatype Outcome = Outcome(reply: Reply, state: State, attempted: seq<string>)

  /**
   The delete handler. An unknown id is answered 404 and nothing changes.
   Otherwise the keys derived from the post's image paths are deleted in
   order: if one fails the handler answers 500 naming that key and keeps the
   row; if all succeed (or there are none) it removes exactly that row and
   answers 200. `fails(key)` says whether the storage service refuses to
   delete `key`.
   */
  function DeleteComment(st: State, id: int, imagePaths: string -> seq<string>, fails: string -> bool): (r: Outcome)
    ensures id !in st.posts ==> r == Outcome(Reply(404, Message("Comment not found!")), st, [])
    ensures id in st.posts ==>
              var keys := DeleteKeys(imagePaths(st.posts[id].content));
              (forall i :: 0 <= i < |keys| ==> !fails(keys[i])) ==>
                r == Outcome(Reply(200, Message("Comment deleted successfully!")),
                             State(st.posts - {id}, st.bucket - Elems(keys)), keys)
    ensures id in st.posts ==>
              var keys := DeleteKeys(imagePaths(st.posts[id].content));
              forall k :: FirstFailure(keys, fails, k) ==>
                r == Outcome(Reply(500, Message("Error deleting file " + keys[k])),
                             State(st.posts, st.bucket - Elems(keys[..k])), keys[..k + 1])
  {
    if id !in st.posts then Outcome(Reply(404, Message("Comment not found!")), st, [])
    else DeleteFound(st, id, DeleteKeys(imagePaths(st.posts[id].content)), fails)
  }

  /** The delete handler once the row exists and its image keys are known. */
  function DeleteFound(st: State, id: int, keys: seq<string>, fails: string -> bool): (r: Outcome)
    requires id in st.posts
    ensures (forall i :: 0 <= i < |keys| ==> !fails(keys[i])) ==>
              r == Outcome(Reply(200, Message("Comment deleted successfully!")),
                           State(st.posts - {id}, st.bucket - Elems(keys)), keys)
    ensures forall k :: FirstFailure(keys, fails, k) ==>
              r == Outcome(Reply(500, Message("Error deleting file " + keys[k])),
                           State(st.posts, st.bucket - Elems(keys[..k])), keys[..k + 1])
  {
    var sweep := DeleteObjects(st.bucket, keys, fails);
    match sweep.failedAt
    case Some(k) =>
      assert forall k' :: FirstFailure(keys, fails, k') ==> k' == k by {
        forall k' | FirstFailure(keys, fails, k') {
          FirstFailureUnique(keys, fails, k, k');
        }
      }
      Outcome(Reply(500, Message("Error deleting file " + keys[k])), st.(bucket := sweep.bucket), sweep.attempted)
    case None =>
      Outcome(Reply(200, Message("Comment deleted successfully!")),
              State(st.posts - {id}, sweep.bucket), sweep.attempted)
  }

  /**
   Round trip between the two handlers: an accepted upload answers with the
   URL `S3Domain/<name>` and stores the object under `files/<name>`, where the
   name holds no `/`, `?`, `#` or `;`, so the URL's path is `/<name>`; the
   key derived from that path is the key the upload stored under.
   */
  lemma UploadDeleteRoundTrip(st: State, filename: string, entropy: seq<Hex.byte>, now: Timestamp.ValidTime,
                              uploadError: string -> Option<string>)
    requires Upload.AllowedFile(filename)
    ensures var name := Upload.GenerateRandomFilename(entropy, now, Upload.GetFileExtension(filename));
            && '/' !in name && '?' !in name && '#' !in name && ';' !in name
            && '\t' !in name && '\r' !in name && '\n' !in name
            && DeleteKey("/" + name) == ObjectKey(name)
            && (uploadError(ObjectKey(name)).None? ==>
                  Upload.UploadFile(st, Some(FilePart(Some(filename))), entropy, now, uploadError)
                  == (Reply(201, Url(S3Domain + "/" + name)), st.(bucket := st.bucket + {DeleteKey("/" + name)})))
  {
    var ext := Upload.GetFileExtension(filename);
    var name := Upload.GenerateRandomFilename(entropy, now, ext);
    Upload.AllowedExtensionLetters(ext);
    Upload.GeneratedNameShape(entropy, now, ext);
    DeleteKeyOfFileName(name);
  }

  /**
   Deleting a post whose only image maps to `key`, when no deletion fails,
   removes the row and that one object and answers 200.
   */
  lemma DeleteOnlyImage(st: State, id: int, key: string, fails: string -> bool)
    requires id in st.posts
    requires !fails(key)
    ensures DeleteFound(st, id, [key], fails)
            == Outcome(Reply(200, Message("Comment deleted successfully!")), State(st.posts - {id}, st.bucket - {key}), [key])
  {
    assert Elems([key]) == {key};
  }

  /**
   End to end: after an accepted upload, deleting a post whose only image is
   the uploaded one, with no deletion failing, removes the row and the
   uploaded object and answers 200.
   */
  lemma UploadedImageIsDeleted(st: State, filename: string, entropy: seq<Hex.byte>, now: Timestamp.ValidTime,
                               uploadError: string -> Option<string>, id: int,
                               imagePaths: string -> seq<string>, fails: string -> bool)
    requires Upload.AllowedFile(filename)
    requires Upload.UploadFile(st, Some(FilePart(Some(filename))), entropy, now, uploadError).0.status == 201
    requires id in st.posts
    requires imagePaths(st.posts[id].content)
             == ["/" + Upload.GenerateRandomFilename(entropy, now, Upload.GetFileExtension(filename))]
    requires !fails(ObjectKey(Upload.GenerateRandomFilename(entropy, now, Upload.GetFileExtension(filename))))
    ensures var st' := Upload.UploadFile(st, Some(FilePart(Some(filename))), entropy, now, uploadError).1;
            var key := ObjectKey(Upload.GenerateRandomFilename(entropy, now, Upload.GetFileExtension(filename)));
            && key in st'.bucket
            && var r := DeleteComment(st', id, imagePaths, fails);
               r.reply.status == 200 && id !in r.state.posts && key !in r.state.bucket
               && r.state.bucket == st'.bucket - {key}
  {
    var name := Upload.GenerateRandomFilename(entropy, now, Upload.GetFileExtension(filename));
    var key := ObjectKey(name);
    UploadDeleteRoundTrip(st, filename, entropy, now, uploadError);
    var st' := Upload.UploadFile(st, Some(FilePart(Some(filename))), entropy, now, uploadError).1;
    assert st'.posts == st.posts;
    var keys := DeleteKeys(imagePaths(st'.posts[id].content));
    assert keys == [key];
    DeleteOnlyImage(st', id, key, fails);
  }
}

=== FILE: hex.dfy ===
/**
 `secrets.token_hex(n)`: `n` random bytes written as lower-case hexadecimal,
 two digits per byte, high nibble first. The random bytes themselves are a
 parameter here; the application draws ten of them.
 */
module Hex {
  import opened Options

  type byte = x: int | 0 <= x < 256

  const HexDigits: string := "0123456789abcdef"

  /** The hexadecimal text of `bytes`, as `bytes.hex()` writes it. */
  function Encode(bytes: seq<byte>): (s: string)
    ensures |s| == 2 * |bytes|
  {
    if |bytes| == 0 then ""
    else [HexDigits[bytes[0] / 16], HexDigits[bytes[0] % 16]] + Encode(bytes[1..])
  }

  /** Every character of an encoding is a lower-case hexadecimal digit. */
  lemma {:induction false} EncodeDigits(bytes: seq<byte>)
    ensures forall i :: 0 <= i < |Encode(bytes)| ==> Encode(bytes)[i] in HexDigits
  {
    if |bytes| > 0 {
      var b := bytes[0];
      var head, s, t := [HexDigits[b / 16], HexDigits[b % 16]], Encode(bytes), Encode(bytes[1..]);
      EncodeDigits(bytes[1..]);
      assert s == head + t;
      forall i | 2 <= i < |s|
        ensures s[i] in HexDigits
      {
        var k := i - 2;
        assert s[i] == t[k];
      }
    }
  }

  /** The value of one lower-case hexadecimal digit. */
  function DigitValue(c: char): (r: Option<nat>)
    ensures r.Some? ==> r.value < 16
  {
    if '0' <= c <= '9' then Some(c as int - '0' as int)
    else if 'a' <= c <= 'f' then Some(c as int - 'a' as int + 10)
    else None
  }

  /** Exactly the sixteen digits have a value, and each is the digit written for its value. */
  lemma DigitValueSpec(c: char)
    ensures DigitValue(c).Some? <==> c in HexDigits
    ensures DigitValue(c).Some? ==> HexDigits[DigitValue(c).value] == c
  {
  }

  /** A character that is not a lower-case hexadecimal digit never occurs in an encoding. */
  lemma EncodeAvoids(bytes: seq<byte>, c: char)
    requires !('0' <= c <= '9') && !('a' <= c <= 'f')
    ensures c !in Encode(bytes)
  {
    EncodeDigits(bytes);
    DigitValueSpec(c);
  }

  /** Every digit reads back as the value it was written for. */
  lemma DigitValueOfDigit(n: nat)
    requires n < 16
    ensures DigitValue(HexDigits[n]) == Some(n)
  {
  }

  /** Reads lower-case hexadecimal text back into bytes; `None` for odd length or a stray character. */
  function Decode(s: string): (r: Option<seq<byte>>)
  {
    if |s| == 0 then Some([])
    else if |s| == 1 then None
    else
      var hi, lo, rest := DigitValue(s[0]), DigitValue(s[1]), Decode(s[2..]);
      if hi.Some? && lo.Some? && rest.Some? then Some([hi.value * 16 + lo.value] + rest.value)
      else None
  }

  /** Decoding the hexadecimal text of some bytes gives those bytes back. */
  lemma {:induction false} DecodeEncode(bytes: seq<byte>)
    ensures Decode(Encode(bytes)) == Some(bytes)
  {
    if |bytes| > 0 {
      var b, rest := bytes[0], bytes[1..];
      DecodeEncode(rest);
      ByteDigits(b);
      DecodePair(HexDigits[b / 16], HexDigits[b % 16], Encode(rest));
      assert [b] + rest == bytes;
    }
  }

  /** The two digits written for a byte read back as its high and low nibble. */
  lemma ByteDigits(b: byte)
    ensures DigitValue(HexDigits[b / 16]) == Some(b / 16)
    ensures DigitValue(HexDigits[b % 16]) == Some(b % 16)
    ensures (b / 16) * 16 + b % 16 == b
  {
    DigitValueOfDigit(b / 16);
    DigitValueOfDigit(b % 16);
  }

  /** Decoding two digits followed by more text. */
  lemma DecodePair(hi: char, lo: char, t: string)
    requires DigitValue(hi).Some? && DigitValue(lo).Some? && Decode(t).Some?
    ensures Decode([hi, lo] + t) == Some([DigitValue(hi).value * 16 + DigitValue(lo).value] + Decode(t).value)
  {
    var s := [hi, lo] + t;
    assert s[0] == hi && s[1] == lo && s[2..] == t;
  }

  /** Distinct random bytes give distinct tokens. */
  lemma EncodeInjective(a: seq<byte>, b: seq<byte>)
    requires Encode(a) == Encode(b)
    ensures a == b
  {
    DecodeEncode(a);
    DecodeEncode(b);
  }
}

=== FILE: option.dfy ===
/** The optional value used wherever the application may find nothing. */
module Options {

  datatype Option<+T> = None | Some(value: T)
}

=== FILE: store.dfy ===
/**
 The application's state and configuration: the `Content` table (posts by
 id), the storage bucket (a set of object keys), the fixed settings, the
 replies the handlers send, and the create-post handler.
 */
module Store {
  import opened Options
  import opened Text

  /** A row of the `Content` table: HTML content and the comma-joined local attachment paths. */
  datatype Post = Post(content: string, attachments: string)

  /** The persisted world: posts by id and the keys of the objects in the bucket. */
  datatype State = State(posts: map<int, Post>, bucket: set<string>)

  /** An uploaded file part as the request carries it; `filename` is absent when the part names no file. */
  datatype FilePart = FilePart(filename: Option<string>)

  /** What a handler sends back. */
  datatype Body =
    | Url(url: string)        // `{"url": ...}`
    | Message(text: string)   // `{"message": ...}`
    | ErrorPage               // the framework's own error page
    | Listing                 // the rendered list of all posts

  datatype Reply = Reply(status: int, body: Body)

  /** Public base address of the bucket. */
  const S3Domain: string := "https://aws.com"

  /** Local folder that create-post saves attachments into. */
  const UploadFolder: string := "static/uploads"

  /** The bucket directory every uploaded object lives in. */
  const ObjectDir: string := "files/"

  /** The bucket key of an uploaded file. */
  function ObjectKey(filename: string): (key: string)
  {
    ObjectDir + filename
  }

  /** A werkzeug file part is truthy exactly when it names a non-empty file. */
  predicate Named(part: FilePart)
  {
    part.filename.Some? && part.filename.value != ""
  }

  /**
   The local paths create-post saves the named parts under, in order;
   `secure` is the filename sanitiser. Parts that name no file are skipped.
   */
  function SavedPaths(parts: seq<FilePart>, secure: string -> string): (paths: seq<string>)
    ensures |paths| <= |parts|
    ensures (forall i :: 0 <= i < |parts| ==> !Named(parts[i])) ==> paths == []
  {
    if |parts| == 0 then []
    else
      var rest := SavedPaths(parts[1..], secure);
      if Named(parts[0]) then [PathJoin(UploadFolder, secure(parts[0].filename.value))] + rest
      else rest
  }

  /** When every part names a file, the i-th saved path is the sanitised name of the i-th part under the upload folder. */
  lemma {:induction false} SavedPathsAllNamed(parts: seq<FilePart>, secure: string -> string)
    requires forall i :: 0 <= i < |parts| ==> Named(parts[i])
    ensures |SavedPaths(parts, secure)| == |parts|
    ensures forall i :: 0 <= i < |parts| ==>
              SavedPaths(parts, secure)[i] == PathJoin(UploadFolder, secure(parts[i].filename.value))
  {
    if |parts| > 0 {
      var tail := parts[1..];
      SavedPathsAllNamed(tail, secure);
      var paths, rest := SavedPaths(parts, secure), SavedPaths(tail, secure);
      assert paths == [PathJoin(UploadFolder, secure(parts[0].filename.value))] + rest;
      forall i | 0 < i < |parts|
        ensures paths[i] == PathJoin(UploadFolder, secure(parts[i].filename.value))
      {
        var k := i - 1;
        assert paths[i] == rest[k];
        assert tail[k] == parts[i];
      }
    }
  }

  /** The parts that name a file, in their original order. */
  function NamedParts(parts: seq<FilePart>): (named: seq<FilePart>)
    ensures |named| <= |parts|
  {
    if |parts| == 0 then []
    else (if Named(parts[0]) then [parts[0]] else []) + NamedParts(parts[1..])
  }

  /** `NamedParts` keeps exactly the parts that name a file. */
  lemma {:induction false} NamedPartsKeeps(parts: seq<FilePart>)
    ensures forall p :: p in NamedParts(parts) <==> p in parts && Named(p)
    ensures forall i :: 0 <= i < |NamedParts(parts)| ==> Named(NamedParts(parts)[i])
  {
    if |parts| > 0 {
      var rest := parts[1..];
      NamedPartsKeeps(rest);
      assert parts == [parts[0]] + rest;
      var named := NamedParts(parts);
      forall i | 0 <= i < |named|
        ensures Named(named[i])
      {
        assert named[i] in named;
      }
    }
  }

  /** Parts that name no file contribute nothing: the saved paths are those of the named parts. */
  lemma {:induction false} SavedPathsOfNamed(parts: seq<FilePart>, secure: string -> string)
    ensures SavedPaths(parts, secure) == SavedPaths(NamedParts(parts), secure)
  {
    if |parts| > 0 {
      var p, rest := parts[0], parts[1..];
      SavedPathsOfNamed(rest, secure);
      var tail := NamedParts(rest);
      if Named(p) {
        assert NamedParts(parts) == [p] + tail;
        assert ([p] + tail)[1..] == tail;
      } else {
        assert NamedParts(parts) == tail;
      }
    }
  }

  /**
   The saved paths, one per part that names a file and in the same order:
   the i-th is the i-th named part's sanitised name under the upload folder.
   */
  lemma SavedPathsSpec(parts: seq<FilePart>, secure: string -> string, named: seq<FilePart>)
    requires named == NamedParts(parts)
    ensures |SavedPaths(parts, secure)| == |named|
    ensures forall i :: 0 <= i < |named| ==>
              Named(named[i]) && SavedPaths(parts, secure)[i] == PathJoin(UploadFolder, secure(named[i].filename.value))
  {
    NamedPartsKeeps(parts);
    SavedPathsOfNamed(parts, secure);
    SavedPathsAllNamed(named, secure);
  }

  /** Every saved path was written without error; `saveFails` says which local saves raise. */
  predicate AllSaved(paths: seq<string>, saveFails: string -> bool)
  {
    forall i :: 0 <= i < |paths| ==> !saveFails(paths[i])
  }

  /**
   The create-post handler: the `editordata` field is required and must be
   non-empty; each named attachment is saved locally and the saved paths are
   stored comma-joined with the new row under `newId`, the id the database
   assigns. A save that raises (`saveFails` of its path) is not caught: the
   framework answers 500 and no row is added. Every other outcome ends by
   rendering the listing.
   */
  function CreatePost(st: State, editordata: Option<string>, attachments: seq<FilePart>,
                      secure: string -> string, saveFails: string -> bool, newId: int): (r: (Reply, State))
    requires newId !in st.posts
    ensures editordata.None? ==> r == (Reply(400, ErrorPage), st)
    ensures editordata == Some("") ==> r == (Reply(400, Message("Content is required!")), st)
    ensures editordata.Some? && editordata.value != "" && !AllSaved(SavedPaths(attachments, secure), saveFails) ==>
              r == (Reply(500, ErrorPage), st)
    ensures editordata.Some? && editordata.value != "" && AllSaved(SavedPaths(attachments, secure), saveFails) ==>
              && r.0 == Reply(200, Listing)
              && r.1.bucket == st.bucket
              && r.1.posts.Keys == st.posts.Keys + {newId}
              && r.1.posts[newId] == Post(editordata.value, Join(SavedPaths(attachments, secure), ','))
              && (forall id :: id in st.posts ==> r.1.posts[id] == st.posts[id])
  {
    match editordata
    case None => (Reply(400, ErrorPage), st)
    case Some(content) =>
      if content == "" then (Reply(400, Message("Content is required!")), st)
      else
        var saved := SavedPaths(attachments, secure);
        if !AllSaved(saved, saveFails) then (Reply(500, ErrorPage), st)
        else (Reply(200, Listing), st.(posts := st.posts[newId := Post(content, Join(saved, ','))]))
  }

  /** A post created with no attachment that names a file stores an empty attachment list. */
  lemma NoAttachmentsStoresEmpty(st: State, content: string, attachments: seq<FilePart>,
                                 secure: string -> string, saveFails: string -> bool, newId: int)
    requires newId !in st.posts && content != ""
    requires forall i :: 0 <= i < |attachments| ==> !Named(attachments[i])
    ensures CreatePost(st, Some(content), attachments, secure, saveFails, newId)
            == (Reply(200, Listing), st.(posts := st.posts[newId := Post(content, "")]))
  {
  }

  /**
   The stored attachment list reads back as the saved paths, as long as at
   least one file was saved and no saved path contains a comma.
   */
  lemma AttachmentsRoundTrip(st: State, content: string, attachments: seq<FilePart>,
                             secure: string -> string, saveFails: string -> bool, newId: int)
    requires newId !in st.posts && content != ""
    requires AllSaved(SavedPaths(attachments, secure), saveFails)
    requires |SavedPaths(attachments, secure)| >= 1
    requires forall i :: 0 <= i < |SavedPaths(attachments, secure)| ==> ',' !in SavedPaths(attachments, secure)[i]
    ensures Split(CreatePost(st, Some(content), attachments, secure, saveFails, newId).1.posts[newId].attachments, ',')
            == SavedPaths(attachments, secure)
  {
    SplitJoin(SavedPaths(attachments, secure), ',');
  }
}

=== FILE: text.dfy ===
/**
 The handful of Python string and path operations the application relies on,
 written out over `string` (a `seq<char>`): `str.find`, `str.rfind`,
 `str.rsplit(sep, 1)`, `str.split(sep)`, `sep.join(parts)`, `str.lstrip(chars)`,
 `str.lower()` and the two-argument `posixpath.join` (which `os.path.join` is
 on a POSIX host).
 */
module Text {

  /** Python's `str.find` for a single character: the first index of `c`, or -1. */
  function Find(s: string, c: char): (r: int)
    ensures -1 <= r < |s|
    ensures r >= 0 ==> s[r] == c
    ensures forall j :: 0 <= j < |s| && (r < 0 || j < r) ==> s[j] != c
  {
    if |s| == 0 then -1
    else if s[0] == c then 0
    else
      var r' := Find(s[1..], c);
      if r' >= 0 then r' + 1 else -1
  }

  /** Python's `str.rfind` for a single character: the last index of `c`, or -1. */
  function RFind(s: string, c: char): (r: int)
    ensures -1 <= r < |s|
    ensures r >= 0 ==> s[r] == c
  {
    if |s| == 0 then -1
    else if s[|s| - 1] == c then |s| - 1
    else
      RFind(s[..|s| - 1], c)
  }

  /** No occurrence of `c` lies past the one `RFind` reports; so -1 means `c` does not occur. */
  lemma {:induction false} RFindNoneAfter(s: string, c: char)
    ensures forall j :: RFind(s, c) < j < |s| ==> s[j] != c
    ensures RFind(s, c) < 0 <==> c !in s
    decreases |s|
  {
    if |s| > 0 && s[|s| - 1] != c {
      var init := s[..|s| - 1];
      RFindNoneAfter(init, c);
      forall j | RFind(s, c) < j < |s|
        ensures s[j] != c
      {
        if j < |init| {
          assert s[j] == init[j];
        }
      }
    }
  }

  /**
   Python's `s.rsplit(sep, 1)` for a one-character separator: `[s]` when the
   separator does not occur, otherwise the text before and after its last
   occurrence.
   */
  function RSplitOnce(s: string, sep: char): (parts: seq<string>)
    ensures |parts| == (if sep in s then 2 else 1)
    ensures sep !in s ==> parts == [s]
    ensures sep in s ==> parts[0] + [sep] + parts[1] == s && sep !in parts[1]
  {
    var i := RFind(s, sep);
    RFindNoneAfter(s, sep);
    if i < 0 then [s]
    else
      assert s[..i] + [sep] + s[i + 1..] == s;
      [s[..i], s[i + 1..]]
  }

  /**
   The last occurrence in `a + b` is the last one in `b`, shifted past `a`,
   when `b` has one, and the last one in `a` otherwise.
   */
  lemma {:induction false} RFindAppend(a: string, b: string, c: char)
    ensures RFind(a + b, c) == if RFind(b, c) >= 0 then |a| + RFind(b, c) else RFind(a, c)
    decreases |b|
  {
    if |b| == 0 {
      assert a + b == a;
    } else if b[|b| - 1] != c {
      var b' := b[..|b| - 1];
      assert (a + b)[..|a + b| - 1] == a + b';
      RFindAppend(a, b', c);
    }
  }

  /**
   A string split around a separator that does not occur after it: the last
   occurrence of the separator is the one written between the two halves.
   */
  lemma RFindOfConcat(stem: string, sep: char, tail: string)
    requires sep !in tail
    ensures RFind(stem + [sep] + tail, sep) == |stem|
  {
    RFindNoneAfter(tail, sep);
    RFindAppend(stem + [sep], tail, sep);
  }

  /** `RSplitOnce` undoes writing `stem`, the separator and a separator-free `tail`. */
  lemma RSplitOnceOfConcat(stem: string, sep: char, tail: string)
    requires sep !in tail
    ensures RSplitOnce(stem + [sep] + tail, sep) == [stem, tail]
  {
    var s := stem + [sep] + tail;
    RFindOfConcat(stem, sep, tail);
    assert s[..|stem|] == stem;
    assert s[|stem| + 1..] == tail;
  }

  /** Python's `sep.join(parts)` for a one-character separator. */
  function Join(parts: seq<string>, sep: char): (s: string)
  {
    if |parts| == 0 then ""
    else if |parts| == 1 then parts[0]
    else Join(parts[..|parts| - 1], sep) + [sep] + parts[|parts| - 1]
  }

  /**
   Python's `s.split(sep)` for a one-character separator, cut from the right:
   the pieces before the last separator, then the text after it.
   */
  function Split(s: string, sep: char): (parts: seq<string>)
    ensures |parts| >= 1
    decreases |s|
  {
    var i := RFind(s, sep);
    if i < 0 then [s]
    else Split(s[..i], sep) + [s[i + 1..]]
  }

  /** The last piece of a split is the text after the last separator. */
  lemma SplitLastPiece(s: string, sep: char)
    ensures var parts := Split(s, sep); parts[|parts| - 1] == s[RFind(s, sep) + 1..]
  {
    if RFind(s, sep) < 0 {
      assert Split(s, sep) == [s];
    }
  }

  /** Joining the pieces of a split gives the string back. */
  lemma {:induction false} JoinSplit(s: string, sep: char)
    ensures Join(Split(s, sep), sep) == s
    decreases |s|
  {
    var i := RFind(s, sep);
    if i >= 0 {
      var init := Split(s[..i], sep);
      var parts := Split(s, sep);
      assert parts == init + [s[i + 1..]];
      assert parts[..|parts| - 1] == init;
      assert Join(parts, sep) == Join(init, sep) + [sep] + s[i + 1..];
      JoinSplit(s[..i], sep);
      assert s == s[..i] + [sep] + s[i + 1..];
    } else {
      assert Split(s, sep) == [s];
    }
  }

  /** The text after the last separator holds no separator. */
  lemma AfterLastFree(s: string, sep: char)
    ensures sep !in s[RFind(s, sep) + 1..]
  {
    var r := RFind(s, sep);
    var last := s[r + 1..];
    RFindNoneAfter(s, sep);
    forall k | 0 <= k < |last|
      ensures last[k] != sep
    {
      var j := r + 1 + k;
      assert last[k] == s[j];
    }
  }

  /** Splitting undoes joining when no part contains the separator. */
  lemma {:induction false} SplitJoin(parts: seq<string>, sep: char)
    requires |parts| >= 1
    requires forall i :: 0 <= i < |parts| ==> sep !in parts[i]
    ensures Split(Join(parts, sep), sep) == parts
    decreases |parts|
  {
    var n := |parts|;
    if n > 1 {
      var init, last := parts[..n - 1], parts[n - 1];
      assert parts == init + [last];
      assert sep !in last;
      var j := Join(init, sep);
      var s := Join(parts, sep);
      assert s == j + [sep] + last;
      RFindOfConcat(j, sep, last);
      assert s[..|j|] == j;
      assert s[|j| + 1..] == last;
      SplitJoin(init, sep);
    }
  }

  /**
   The text after the last `c` of `a + b`, where `a` ends in `c`, is the text
   after the last `c` of `b` (all of `b` when it has none).
   */
  lemma LastSegmentOfConcat(a: string, b: string, c: char)
    requires |a| > 0 && a[|a| - 1] == c
    ensures (a + b)[RFind(a + b, c) + 1..] == b[RFind(b, c) + 1..]
  {
    RFindAppend(a, b, c);
    var r := RFind(b, c);
    if r >= 0 {
      assert (a + b)[|a| + r + 1..] == b[r + 1..];
    } else {
      assert RFind(a, c) == |a| - 1;
      assert (a + b)[|a|..] == b;
      assert b[r + 1..] == b;
    }
  }

  /** Python's `s.lstrip(c)` for a single character. */
  function LStrip(s: string, c: char): (r: string)
    ensures |r| <= |s|
    ensures |r| == 0 || r[0] != c
  {
    if |s| > 0 && s[0] == c then LStrip(s[1..], c) else s
  }

  /** `LStrip` removes a prefix made of copies of `c` and nothing else. */
  lemma {:induction false} LStripRemovesPrefix(s: string, c: char)
    ensures var r := LStrip(s, c);
            && r == s[|s| - |r|..]
            && forall i :: 0 <= i < |s| - |r| ==> s[i] == c
    decreases |s|
  {
    if |s| > 0 && s[0] == c {
      var rest := s[1..];
      LStripRemovesPrefix(rest, c);
      var r := LStrip(rest, c);
      assert rest[|rest| - |r|..] == s[|s| - |r|..];
      forall i | 0 < i < |s| - |r|
        ensures s[i] == c
      {
        var k := i - 1;
        assert s[i] == rest[k];
      }
    }
  }

  /** Stripping leading copies of `c` does not change the text after the last `c`. */
  lemma {:induction false} LStripKeepsLastSegment(s: string, c: char)
    ensures var t := LStrip(s, c); t[RFind(t, c) + 1..] == s[RFind(s, c) + 1..]
    decreases |s|
  {
    if |s| > 0 && s[0] == c {
      var rest := s[1..];
      assert LStrip(s, c) == LStrip(rest, c);
      LStripKeepsLastSegment(rest, c);
      assert [c] + rest == s;
      LastSegmentOfConcat([c], rest, c);
    } else {
      assert LStrip(s, c) == s;
    }
  }

  /**
   The last piece of `t.split(c)`, where `t` is `s.lstrip(c)`, is the text
   after the last `c` of `s`.
   */
  lemma LastPieceAfterLStrip(s: string, c: char, t: string)
    requires t == LStrip(s, c)
    ensures Split(t, c)[|Split(t, c)| - 1] == s[RFind(s, c) + 1..]
  {
    SplitLastPiece(t, c);
    LStripKeepsLastSegment(s, c);
  }

  /** Python's `str.lower()` on one character, for the ASCII letters. */
  function LowerChar(ch: char): char
  {
    if 'A' <= ch <= 'Z' then ch - 'A' + 'a' else ch
  }

  /** Python's `str.lower()`, for the ASCII letters. */
  function Lower(s: string): (r: string)
    ensures |r| == |s|
    ensures forall i :: 0 <= i < |s| ==> r[i] == LowerChar(s[i])
  {
    seq(|s|, i requires 0 <= i < |s| => LowerChar(s[i]))
  }

  /** Lower-casing keeps every character it does not change and maps upper case to lower case. */
  lemma LowerFacts(s: string)
    ensures Lower(Lower(s)) == Lower(s)
    ensures forall c :: c !in s && !('a' <= c <= 'z') ==> c !in Lower(s)
  {
  }

  /** A string with no upper-case ASCII letter is its own lower case. */
  predicate IsLower(s: string)
  {
    forall i :: 0 <= i < |s| ==> !('A' <= s[i] <= 'Z')
  }

  lemma LowerOfLower(s: string)
    requires IsLower(s)
    ensures Lower(s) == s
  {
  }

  /**
   Python's `posixpath.join(a, b)`: an absolute `b` replaces `a`; otherwise
   `b` is appended, with a `/` in between unless `a` is empty or already ends
   in one.
   */
  function PathJoin(a: string, b: string): (r: string)
    ensures |b| > 0 && b[0] == '/' ==> r == b
    ensures (|b| == 0 || b[0] != '/') && |a| > 0 && a[|a| - 1] != '/' ==> r == a + "/" + b
    ensures (|b| == 0 || b[0] != '/') && (|a| == 0 || a[|a| - 1] == '/') ==> r == a + b
  {
    if |b| > 0 && b[0] == '/' then b
    else if |a| == 0 || a[|a| - 1] == '/' then a + b
    else a + "/" + b
  }

  /**
   The text after the last `/` of `posixpath.join(a, b)` is `b` itself when
   `b` is a non-empty name without `/`: joining puts a file name at the end
   of a path, where splitting on `/` finds it again.
   */
  lemma PathJoinLastSegment(a: string, b: string)
    requires |b| > 0 && '/' !in b
    ensures var r := PathJoin(a, b); r[RFind(r, '/') + 1..] == b
  {
    if |a| == 0 {
      RFindNoneAfter(b, '/');
      assert PathJoin(a, b) == b;
    } else if a[|a| - 1] == '/' {
      SlashFreeTail(a, b);
    } else {
      SlashFreeTail(a + "/", b);
    }
  }

  /** After a prefix ending in `/`, a `/`-free tail is exactly the last segment. */
  lemma SlashFreeTail(prefix: string, b: string)
    requires |prefix| > 0 && prefix[|prefix| - 1] == '/'
    requires '/' !in b
    ensures (prefix + b)[RFind(prefix + b, '/') + 1..] == b
  {
    RFindNoneAfter(b, '/');
    LastSegmentOfConcat(prefix, b, '/');
    assert b[0..] == b;
  }
}

=== FILE: timestamp.dfy ===
/**
 The local time stamp written into generated file names, in the layout
 `%Y-%m-%d_at_%I.%M.%S_%p` (for example `2024-03-05_at_01.07.09_PM`). The
 clock reading is a parameter.
 */
module Timestamp {
  import opened Options

  /** A clock reading with the fields of `datetime.datetime` that the layout prints. */
  datatype LocalTime = LocalTime(year: int, month: int, day: int, hour: int, minute: int, second: int)

  /** The field ranges `datetime.datetime` enforces (the day is only bounded by 31 here). */
  predicate Valid(t: LocalTime)
  {
    && 1 <= t.year <= 9999
    && 1 <= t.month <= 12
    && 1 <= t.day <= 31
    && 0 <= t.hour < 24
    && 0 <= t.minute < 60
    && 0 <= t.second < 60
  }

  type ValidTime = t: LocalTime | Valid(t) witness LocalTime(1970, 1, 1, 0, 0, 0)

  function Pow10(width: nat): (p: nat)
  {
    if width == 0 then 1 else 10 * Pow10(width - 1)
  }

  predicate IsDigit(c: char)
  {
    '0' <= c <= '9'
  }

  predicate AllDigits(s: string)
  {
    forall i :: 0 <= i < |s| ==> IsDigit(s[i])
  }

  /** The last `width` decimal digits of `n`, zero-padded on the left (`%02d`, `%04d`). */
  function Pad(n: nat, width: nat): (s: string)
    ensures |s| == width
    ensures AllDigits(s)
  {
    if width == 0 then "" else Pad(n / 10, width - 1) + [('0' as int + n % 10) as char]
  }

  /** The number a string of decimal digits denotes. */
  function DigitsValue(s: string): (n: nat)
    requires AllDigits(s)
  {
    if |s| == 0 then 0 else 10 * DigitsValue(s[..|s| - 1]) + (s[|s| - 1] as int - '0' as int)
  }

  /** Padding loses nothing when the number fits in the width. */
  lemma {:induction false} PadValue(n: nat, width: nat)
    requires n < Pow10(width)
    ensures DigitsValue(Pad(n, width)) == n
  {
    if width > 0 {
      PadValue(n / 10, width - 1);
      assert Pad(n, width)[..width - 1] == Pad(n / 10, width - 1);
    }
  }

  /** `%I`: the hour on the 12-hour clock, 12 standing for 0. */
  function Hour12(hour: int): (h: int)
    ensures 1 <= h <= 12
  {
    if hour % 12 == 0 then 12 else hour % 12
  }

  /** `%p` in the C locale. */
  function Meridiem(hour: int): (m: string)
    ensures |m| == 2
  {
    if hour < 12 then "AM" else "PM"
  }

  /** `%Y-%m-%d`: the ten-character date. */
  function DatePart(t: ValidTime): (s: string)
    ensures |s| == 10
  {
    Pad(t.year, 4) + "-" + Pad(t.month, 2) + "-" + Pad(t.day, 2)
  }

  /** `%I.%M.%S`: the eight-character time of day on the 12-hour clock. */
  function ClockPart(t: ValidTime): (s: string)
    ensures |s| == 8
  {
    Pad(Hour12(t.hour), 2) + "." + Pad(t.minute, 2) + "." + Pad(t.second, 2)
  }

  /** `datetime.strftime("%Y-%m-%d_at_%I.%M.%S_%p")`. */
  function Format(t: ValidTime): (s: string)
    ensures |s| == 25
  {
    DatePart(t) + "_at_" + ClockPart(t) + "_" + Meridiem(t.hour)
  }

  /** The characters a time stamp is made of. */
  predicate StampChar(ch: char)
  {
    IsDigit(ch) || ch == '-' || ch == '_' || ch == '.' || ch == 'a' || ch == 't' || ch == 'A' || ch == 'M' || ch == 'P'
  }

  predicate InAlphabet(s: string)
  {
    forall i :: 0 <= i < |s| ==> StampChar(s[i])
  }

  lemma DigitsInAlphabet(s: string)
    requires AllDigits(s)
    ensures InAlphabet(s)
  {
    forall i | 0 <= i < |s|
      ensures StampChar(s[i])
    {
      assert IsDigit(s[i]);
    }
  }

  lemma ConcatInAlphabet(a: string, b: string)
    requires InAlphabet(a) && InAlphabet(b)
    ensures InAlphabet(a + b)
  {
    assert forall i :: |a| <= i < |a + b| ==> (a + b)[i] == b[i - |a|];
  }

  lemma OutsideAlphabet(s: string, c: char)
    requires InAlphabet(s) && !StampChar(c)
    ensures c !in s
  {
  }

  lemma DatePartInAlphabet(t: ValidTime)
    ensures InAlphabet(DatePart(t))
  {
    var y, mo, d := Pad(t.year, 4), Pad(t.month, 2), Pad(t.day, 2);
    DigitsInAlphabet(y); DigitsInAlphabet(mo); DigitsInAlphabet(d);
    ConcatInAlphabet(y, "-"); ConcatInAlphabet(y + "-", mo);
    ConcatInAlphabet(y + "-" + mo, "-"); ConcatInAlphabet(y + "-" + mo + "-", d);
  }

  lemma ClockPartInAlphabet(t: ValidTime)
    ensures InAlphabet(ClockPart(t))
  {
    var h, mi, se := Pad(Hour12(t.hour), 2), Pad(t.minute, 2), Pad(t.second, 2);
    DigitsInAlphabet(h); DigitsInAlphabet(mi); DigitsInAlphabet(se);
    ConcatInAlphabet(h, "."); ConcatInAlphabet(h + ".", mi);
    ConcatInAlphabet(h + "." + mi, "."); ConcatInAlphabet(h + "." + mi + ".", se);
  }

  /** A time stamp is made of `StampChar`s only. */
  lemma FormatInAlphabet(t: ValidTime)
    ensures InAlphabet(Format(t))
  {
    var date, clock, m := DatePart(t), ClockPart(t), Meridiem(t.hour);
    DatePartInAlphabet(t);
    ClockPartInAlphabet(t);
    ConcatInAlphabet(date, "_at_"); ConcatInAlphabet(date + "_at_", clock);
    ConcatInAlphabet(date + "_at_" + clock, "_");
    ConcatInAlphabet(date + "_at_" + clock + "_", m);
  }

  /**
   Every character of a time stamp is a `StampChar`: in particular it
   holds dots but never a `/`, `?`, `#` or `;`.
   */
  lemma FormatShape(t: ValidTime)
    ensures InAlphabet(Format(t))
    ensures '.' in Format(t)
    ensures '/' !in Format(t) && '?' !in Format(t) && '#' !in Format(t) && ';' !in Format(t)
  {
    var s := Format(t);
    FormatInAlphabet(t);
    FormatPieces(t);
    assert ClockPart(t)[2] == '.';
    assert s[16] == ClockPart(t)[2];
    OutsideAlphabet(s, '/');
    OutsideAlphabet(s, '?');
    OutsideAlphabet(s, '#');
    OutsideAlphabet(s, ';');
  }

  /** Reads the date part back; `None` for text not in the layout. */
  function ParseDate(s: string): (r: Option<(int, int, int)>)
  {
    if |s| != 10 || s[4] != '-' || s[7] != '-'
       || !AllDigits(s[..4]) || !AllDigits(s[5..7]) || !AllDigits(s[8..])
    then None
    else Some((DigitsValue(s[..4]), DigitsValue(s[5..7]), DigitsValue(s[8..])))
  }

  /** Reads the clock part back as (12-hour hour, minute, second); `None` for text not in the layout. */
  function ParseClock(s: string): (r: Option<(int, int, int)>)
  {
    if |s| != 8 || s[2] != '.' || s[5] != '.'
       || !AllDigits(s[..2]) || !AllDigits(s[3..5]) || !AllDigits(s[6..])
    then None
    else Some((DigitsValue(s[..2]), DigitsValue(s[3..5]), DigitsValue(s[6..])))
  }

  /** Reads a time stamp back; `None` for text not in the layout. */
  function Parse(s: string): (r: Option<LocalTime>)
  {
    if |s| != 25 || s[10..14] != "_at_" || s[22] != '_' then None
    else
      var date, clock, p := ParseDate(s[..10]), ParseClock(s[14..22]), s[23..];
      if date.None? || clock.None? || (p != "AM" && p != "PM") then None
      else
        var (year, month, day) := date.value;
        var (h12, minute, second) := clock.value;
        if h12 < 1 || 12 < h12 then None
        else Some(LocalTime(year, month, day, h12 % 12 + (if p == "PM" then 12 else 0), minute, second))
  }

  lemma ParseDatePart(t: ValidTime)
    ensures ParseDate(DatePart(t)) == Some((t.year, t.month, t.day))
  {
    var s := DatePart(t);
    assert s[..4] == Pad(t.year, 4);
    assert s[5..7] == Pad(t.month, 2);
    assert s[8..] == Pad(t.day, 2);
    PadValue(t.year, 4);
    PadValue(t.month, 2);
    PadValue(t.day, 2);
  }

  lemma ParseClockPart(t: ValidTime)
    ensures ParseClock(ClockPart(t)) == Some((Hour12(t.hour), t.minute, t.second))
  {
    var s := ClockPart(t);
    assert s[..2] == Pad(Hour12(t.hour), 2);
    assert s[3..5] == Pad(t.minute, 2);
    assert s[6..] == Pad(t.second, 2);
    PadValue(Hour12(t.hour), 2);
    PadValue(t.minute, 2);
    PadValue(t.second, 2);
  }

  /** Where each part sits in a formatted time stamp. */
  lemma FormatPieces(t: ValidTime)
    ensures var s := Format(t);
            && s[..10] == DatePart(t) && s[10..14] == "_at_" && s[14..22] == ClockPart(t)
            && s[22] == '_' && s[23..] == Meridiem(t.hour)
  {
    var date, clock := DatePart(t), ClockPart(t);
    assert |date| == 10 && |clock| == 8;
  }

  /** The 12-hour clock and the meridiem together give the hour back. */
  lemma HourRoundTrip(hour: int)
    requires 0 <= hour < 24
    ensures 1 <= Hour12(hour) <= 12
    ensures Hour12(hour) % 12 + (if Meridiem(hour) == "PM" then 12 else 0) == hour
  {
  }

  /** Parsing a formatted time stamp gives the clock reading back. */
  lemma ParseFormat(t: ValidTime)
    ensures Parse(Format(t)) == Some(t)
  {
    FormatPieces(t);
    ParseDatePart(t);
    ParseClockPart(t);
    HourRoundTrip(t.hour);
  }

  /** Distinct clock readings give distinct time stamps. */
  lemma FormatInjective(t1: ValidTime, t2: ValidTime)
    requires Format(t1) == Format(t2)
    ensures t1 == t2
  {
    ParseFormat(t1);
    ParseFormat(t2);
  }
}

=== FILE: upload.dfy ===
/**
 The upload side: which file names are accepted, the name an accepted file
 is stored under (`<token>-<time stamp>.<ext>`), and the upload handler that
 puts it in the bucket under `files/<name>` and answers with its public URL.
 */
module Upload {
  import opened Options
  import opened Text
  import Hex
  import Timestamp
  import opened Store

  /** The extensions an upload may carry, compared after lower-casing. */
  const AllowedExtensions: set<string> :=
    {"png", "jpg", "jpeg", "gif", "zip", "pdf", "csv", "txt", "doc", "docx", "ppt", "pptx", "xls", "xlsx"}

  /** `allowed_file`: the name has a dot and the lower-cased text after its last dot is an allowed extension. */
  predicate AllowedFile(filename: string)
    ensures AllowedFile(filename) ==> '.' in filename && filename[|filename| - 1] != '.'
  {
    '.' in filename && Lower(RSplitOnce(filename, '.')[1]) in AllowedExtensions
  }

  /** `get_file_extension`: the lower-cased text after the last dot; the name must contain a dot. */
  function GetFileExtension(filename: string): (ext: string)
    requires '.' in filename
    ensures '.' !in ext && |ext| < |filename|
    ensures IsLower(ext)
    ensures AllowedFile(filename) <==> ext in AllowedExtensions
  {
    var tail := RSplitOnce(filename, '.')[1];
    LowerFacts(tail);
    Lower(tail)
  }

  /**
   The accept rule, both ways, without reference to `rsplit`: a name is
   accepted exactly when some dot in it is followed by a dot-free text whose
   lower case is an allowed extension; that text, lower-cased, is the
   extension the name reports.
   */
  lemma AllowedFileIff(stem: string, ext: string)
    requires '.' !in ext
    ensures AllowedFile(stem + "." + ext) <==> Lower(ext) in AllowedExtensions
    ensures GetFileExtension(stem + "." + ext) == Lower(ext)
  {
    RSplitOnceOfConcat(stem, '.', ext);
    assert stem + "." + ext == stem + ['.'] + ext;
  }

  /** Names with no dot, or ending in a dot, are refused. */
  lemma RejectedShapes(filename: string)
    ensures '.' !in filename ==> !AllowedFile(filename)
    ensures |filename| > 0 && filename[|filename| - 1] == '.' ==> !AllowedFile(filename)
  {
    if |filename| > 0 && filename[|filename| - 1] == '.' {
      var stem := filename[..|filename| - 1];
      assert filename == stem + "." + "";
      AllowedFileIff(stem, "");
    }
  }

  /** An upper-case extension is accepted and reported in lower case. */
  lemma UpperCaseExample()
    ensures AllowedFile("A.PNG") && GetFileExtension("A.PNG") == "png"
  {
    assert "A.PNG" == "A" + "." + "PNG";
    assert Lower("PNG") == "png";
    AllowedFileIff("A", "PNG");
  }

  /**
   `generate_random_filename`: the hexadecimal token of the random bytes, a
   dash, the local time stamp, a dot and the extension.
   */
  function GenerateRandomFilename(entropy: seq<Hex.byte>, now: Timestamp.ValidTime, extension: string := "png"): (name: string)
    ensures |name| == 2 * |entropy| + 27 + |extension|
  {
    Hex.Encode(entropy) + "-" + Timestamp.Format(now) + "." + extension
  }

  /**
   The extension read back from a generated name is the one it was built
   with, although the time stamp itself contains dots.
   */
  lemma GeneratedExtension(entropy: seq<Hex.byte>, now: Timestamp.ValidTime, extension: string)
    requires '.' !in extension
    ensures GetFileExtension(GenerateRandomFilename(entropy, now, extension)) == Lower(extension)
    ensures IsLower(extension) ==> GetFileExtension(GenerateRandomFilename(entropy, now, extension)) == extension
  {
    var stem := Hex.Encode(entropy) + "-" + Timestamp.Format(now);
    assert GenerateRandomFilename(entropy, now, extension) == stem + "." + extension;
    AllowedFileIff(stem, extension);
    if IsLower(extension) {
      LowerOfLower(extension);
    }
  }

  /** A token never holds a dash or any character that is special in a URL or a key path. */
  lemma TokenShape(entropy: seq<Hex.byte>)
    ensures '-' !in Hex.Encode(entropy)
    ensures '/' !in Hex.Encode(entropy) && '?' !in Hex.Encode(entropy)
    ensures '#' !in Hex.Encode(entropy) && ';' !in Hex.Encode(entropy)
  {
    Hex.EncodeAvoids(entropy, '-');
    Hex.EncodeAvoids(entropy, '/');
    Hex.EncodeAvoids(entropy, '?');
    Hex.EncodeAvoids(entropy, '#');
    Hex.EncodeAvoids(entropy, ';');
  }

  /** Every allowed extension is made of lower-case letters only. */
  lemma AllowedExtensionLetters(ext: string)
    requires ext in AllowedExtensions
    ensures forall i :: 0 <= i < |ext| ==> 'a' <= ext[i] <= 'z'
    ensures '/' !in ext && '?' !in ext && '#' !in ext && ';' !in ext
    ensures '\t' !in ext && '\r' !in ext && '\n' !in ext
  {
  }

  /**
   A character that is neither a hexadecimal digit nor a time-stamp character
   occurs in a generated name only if it occurs in the extension.
   */
  lemma NameAvoids(entropy: seq<Hex.byte>, now: Timestamp.ValidTime, extension: string, c: char)
    requires !('0' <= c <= '9') && !('a' <= c <= 'f') && !Timestamp.StampChar(c)
    requires c !in extension
    ensures c !in GenerateRandomFilename(entropy, now, extension)
  {
    var token, ts := Hex.Encode(entropy), Timestamp.Format(now);
    Hex.EncodeAvoids(entropy, c);
    Timestamp.FormatInAlphabet(now);
    Timestamp.OutsideAlphabet(ts, c);
    var f := GenerateRandomFilename(entropy, now, extension);
    assert f == token + "-" + ts + "." + extension;
  }

  /**
   No tab, carriage return or line feed occurs in a generated name unless
   the extension holds it (URL parsing deletes those three characters).
   */
  lemma GeneratedNameNoControls(entropy: seq<Hex.byte>, now: Timestamp.ValidTime, extension: string)
    ensures var f := GenerateRandomFilename(entropy, now, extension);
      && ('\t' !in extension ==> '\t' !in f)
      && ('\r' !in extension ==> '\r' !in f)
      && ('\n' !in extension ==> '\n' !in f)
  {
    if '\t' !in extension { NameAvoids(entropy, now, extension, '\t'); }
    if '\r' !in extension { NameAvoids(entropy, now, extension, '\r'); }
    if '\n' !in extension { NameAvoids(entropy, now, extension, '\n'); }
  }

  /**
   A generated name holds no `/`, `?`, `#` or `;` unless its extension does,
   and never starts with `/`; nor a tab, carriage return or line feed unless
   its extension does.
   */
  lemma GeneratedNameShape(entropy: seq<Hex.byte>, now: Timestamp.ValidTime, extension: string)
    requires '/' !in extension && '?' !in extension && '#' !in extension && ';' !in extension
    ensures var f := GenerateRandomFilename(entropy, now, extension);
      '/' !in f && '?' !in f && '#' !in f && ';' !in f && |f| > 0 && f[0] != '/'
    ensures var f := GenerateRandomFilename(entropy, now, extension);
      && ('\t' !in extension ==> '\t' !in f)
      && ('\r' !in extension ==> '\r' !in f)
      && ('\n' !in extension ==> '\n' !in f)
  {
    GeneratedNameNoControls(entropy, now, extension);
    var token, ts := Hex.Encode(entropy), Timestamp.Format(now);
    TokenShape(entropy);
    Timestamp.FormatShape(now);
    var f := GenerateRandomFilename(entropy, now, extension);
    assert f == token + "-" + ts + "." + extension;
    assert forall c :: c in f ==> c in token || c == '-' || c in ts || c == '.' || c in extension;
  }

  /**
   A generated name determines its random bytes, its time stamp and its
   extension: two names collide only when both the random bytes and the
   clock reading (to the second) coincide.
   */
  lemma GeneratedNameInjective(e1: seq<Hex.byte>, t1: Timestamp.ValidTime, x1: string,
                               e2: seq<Hex.byte>, t2: Timestamp.ValidTime, x2: string)
    requires GenerateRandomFilename(e1, t1, x1) == GenerateRandomFilename(e2, t2, x2)
    ensures e1 == e2 && t1 == t2 && x1 == x2
  {
    SameToken(e1, t1, x1, e2, t2, x2);
    SameStampAndExtension(t1, x1, t2, x2);
  }

  /** Equal generated names have equal random bytes and equal tails after the token. */
  lemma SameToken(e1: seq<Hex.byte>, t1: Timestamp.ValidTime, x1: string,
                  e2: seq<Hex.byte>, t2: Timestamp.ValidTime, x2: string)
    requires GenerateRandomFilename(e1, t1, x1) == GenerateRandomFilename(e2, t2, x2)
    ensures e1 == e2
    ensures "-" + Timestamp.Format(t1) + "." + x1 == "-" + Timestamp.Format(t2) + "." + x2
  {
    NameSplit(e1, t1, x1);
    NameSplit(e2, t2, x2);
    TokenDetermined(Hex.Encode(e1), "-" + Timestamp.Format(t1) + "." + x1,
                    Hex.Encode(e2), "-" + Timestamp.Format(t2) + "." + x2);
    Hex.EncodeInjective(e1, e2);
  }

  /** A generated name is its token followed by a tail that starts with a dash. */
  lemma NameSplit(e: seq<Hex.byte>, t: Timestamp.ValidTime, x: string)
    ensures GenerateRandomFilename(e, t, x) == Hex.Encode(e) + ("-" + Timestamp.Format(t) + "." + x)
    ensures '-' !in Hex.Encode(e)
  {
    TokenShape(e);
  }

  /** Equal tails after the token have equal clock readings and equal extensions. */
  lemma SameStampAndExtension(t1: Timestamp.ValidTime, x1: string, t2: Timestamp.ValidTime, x2: string)
    requires "-" + Timestamp.Format(t1) + "." + x1 == "-" + Timestamp.Format(t2) + "." + x2
    ensures t1 == t2 && x1 == x2
  {
    StampAndExtension(Timestamp.Format(t1), x1);
    StampAndExtension(Timestamp.Format(t2), x2);
    Timestamp.FormatInjective(t1, t2);
  }

  /** Two names that each start with a dash-free token and then a dash split at the same place. */
  lemma TokenDetermined(k1: string, rest1: string, k2: string, rest2: string)
    requires '-' !in k1 && '-' !in k2
    requires |rest1| > 0 && rest1[0] == '-' && |rest2| > 0 && rest2[0] == '-'
    requires k1 + rest1 == k2 + rest2
    ensures k1 == k2 && rest1 == rest2
  {
    var f := k1 + rest1;
    DashAfterToken(k1, rest1);
    DashAfterToken(k2, rest2);
    assert k1 == f[..|k1|];
    assert k2 == f[..|k2|];
    assert rest1 == f[|k1|..];
  }

  /** The tail of a generated name splits back into its fixed-width time stamp and its extension. */
  lemma StampAndExtension(stamp: string, ext: string)
    requires |stamp| == 25
    ensures ("-" + stamp + "." + ext)[1..26] == stamp
    ensures ("-" + stamp + "." + ext)[27..] == ext
  {
  }

  /** The first dash of a dash-free token followed by a dash is right after the token. */
  lemma DashAfterToken(token: string, rest: string)
    requires '-' !in token && |rest| > 0 && rest[0] == '-'
    ensures Find(token + rest, '-') == |token|
  {
    var s := token + rest;
    assert s[|token|] == '-';
    assert forall j :: 0 <= j < |token| ==> s[j] == token[j];
  }

  /**
   The upload handler. `part` is the request's `file` part, if any;
   `entropy` and `now` stand for the random bytes and the clock;
   `uploadError(key)` is the storage service's answer to storing an object
   under `key`: `None` when it succeeds, otherwise the error's text.
   */
  function UploadFile(st: State, part: Option<FilePart>, entropy: seq<Hex.byte>, now: Timestamp.ValidTime,
                      uploadError: string -> Option<string>): (r: (Reply, State))
    ensures r.1.posts == st.posts
    ensures part.None? ==> r == (Reply(400, Message("No file part")), st)
    ensures part == Some(FilePart(Some(""))) ==> r == (Reply(400, Message("No selected file")), st)
    ensures part.Some? && part.value.filename != Some("") &&
            (part.value.filename.None? || !AllowedFile(part.value.filename.value)) ==>
              r == (Reply(400, Message("Invalid file type")), st)
    ensures part.Some? && part.value.filename.Some? && AllowedFile(part.value.filename.value) ==>
              var name := GenerateRandomFilename(entropy, now, GetFileExtension(part.value.filename.value));
              var key := "files/" + name;
              && (uploadError(key).None? ==>
                    r == (Reply(201, Url(S3Domain + "/" + name)), st.(bucket := st.bucket + {key})))
              && (uploadError(key).Some? ==>
                    r == (Reply(500, Message("Error uploading file: " + uploadError(key).value)), st))
  {
    match part
    case None => (Reply(400, Message("No file part")), st)
    case Some(file) =>
      if file.filename == Some("") then (Reply(400, Message("No selected file")), st)
      else if Named(file) && AllowedFile(file.filename.value) then
        var ext := GetFileExtension(file.filename.value);
        var filename := GenerateRandomFilename(entropy, now, ext);
        var key := ObjectKey(filename);
        match uploadError(key)
        case None =>
          AllowedExtensionLetters(ext);
          GeneratedNameShape(entropy, now, ext);
          (Reply(201, Url(PathJoin(S3Domain, filename))), st.(bucket := st.bucket + {key}))
        case Some(e) => (Reply(500, Message("Error uploading file: " + e)), st)
      else (Reply(400, Message("Invalid file type")), st)
  }
}
